=== FILE: README.md ===
# Customer-support chatbot: routing, dispatch graph and response composer

This project is a Dafny model of the core of a customer-support chatbot.
The code describes a turn in three parts:

1. A language-model classifier reads the turn.
2. The router turns the classifier's reply into one of two categories,
   `product_review` or `generic`, and returns that category together with
   routing metadata.
3. The planning graph dispatches on the state's router response to the
   matching handler. A `compose_response` node then picks the handler's
   answer (or a fixed apology) as the final response, unchanged.

The composer in `agent/composer_agent.py` is a separate text pipeline that
cleans an answer and formats it for display. Neither the planning graph nor
any other modelled code calls it; its caller is not part of this model.

The model covers three Python modules:

- `agent/router_agent.py` (module `Router`):
  - reading the classifier's reply (`planning_route_query`);
  - category validation (`validate_routing_category`);
  - routing metadata;
  - the two dispatch predicates;
  - `RouterAgent.route_query` on both its normal and its exception path.
- `agent/planning_agent.py` (module `Planning`):
  - the graph state;
  - the `get_product_info` and `compose_response` nodes;
  - the topology built by `setup_agent_graph`, as data: fixed edges, plus
    guarded edges out of `route_query`;
  - traversals of that graph, meaning maximal paths from the entry node.
- `agent/composer_agent.py` (module `Composer`):
  - `remove_system_artifacts`;
  - `format_response`;
  - `compose_response`, on strings and on dicts of strings.

Two support modules hold the Python `str` semantics the agents depend on:

- `Text`:
  - `strip()`, using exactly the code points Python's `isspace`
    accepts (none lies above U+FFFF);
  - `strip(c)`;
  - ASCII `lower`/`capitalize`;
  - the `in` test;
  - `find`;
  - `replace`, as a leftmost non-overlapping scan.
- `Pieces`: `split(sep)` and `join`.

`Outcomes` holds `Option`, used for `dict.get`, and `Outcome`. An
`Outcome` is either a value a call returned or the text of an exception
it raised.

External calls appear as inputs:

- The classifier's reply is an `Outcome<string>`.
- The product handler's reply is an `Outcome<map<string, string>>`.

## Behaviour of the code worth noting

- **Role prefixes.**
  - Only the four prefixes `Assistant:`, `AI:`, `Human:` and `User:` are
    deleted.
  - Deletion is case-sensitive.
  - Every double and single quote is deleted, wherever it occurs.
  - Lines are not split, whitespace runs are not collapsed, and no text
    is substituted for empty or placeholder answers.
- **Sentences.** These are the pieces between the literal separators
  `". "`.
- **Blank lines.** Each non-overlapping occurrence of three newlines, left
  to right, becomes two, so four newlines become three.
- **Empty input.** Empty text composes to the empty string
  (`Composer.ComposeEmptyIff`).
- **A lower-case role prefix survives.** `"assistant: the phone costs $299"`
  composes to `"Assistant: the phone costs $299."`. Deletion misses the
  lower-case prefix, and capitalization then turns it into the listed
  prefix `Assistant:` (`Composer.LowerCaseRolePrefixSurvives`).
- **Composing is not idempotent.** Composing that answer a second time
  deletes the prefix and gives `"The phone costs $299."`
  (`Composer.ComposeNotIdempotent`). So composed output can contain a
  listed role prefix.
- **Product handler failure.** `get_product_info` writes the handler's
  error under an `"error"` key. No apology text is produced.
- **No session operations.** The code defines no load, save or clear
  operation for conversation state. The graph is compiled with a
  `MemorySaver` checkpointer, whose behaviour belongs to the graph library.

Some of the code's wiring does not fit together as written. The model
follows the wiring as written:

- `route_query` returns its decision under the keys `"category"` and
  `"metadata"` (`Planning.RouteQueryUpdate`). The dispatch predicates read
  `"router_response"`, which nothing writes. So a turn that starts without
  a router response never leaves `route_query` (`Planning.RoutedTurnAsWritten`).
  The intended wiring appears only under "## Findings".
- The graph's final edge targets a node named `"end"`, which is modelled as
  the terminal node `End`.
- The conditional edges are passed as a dict from predicates to nodes.
  The model reads that dict as "follow every edge whose predicate holds".
- `planning_agent.py` imports `route_query` from `router_agent`, where it
  exists only as a method of `RouterAgent`.

## Model

| member | source | states |
|---|---|---|
| Router.CategoryOf | agent/router_agent.py:18-20 | each valid name stands for the category whose wire name it is |
| Router.NameIsValid | agent/router_agent.py:18-20 | every category's wire name is valid and maps back to that category |
| Router.ValidNamesAreNormalized | agent/router_agent.py:83-84 | both valid names contain no whitespace or capital, so lower-casing and trimming leave them as they are |
| Router.PlanningRouteQuery | agent/router_agent.py:62-70 | the result is always a valid category; it is `product_review` exactly when the lower-cased reply contains that token, and a classifier exception gives `generic` |
| Router.ReplyMentioningTokenRoutes | agent/router_agent.py:62-65 | a reply holding the token in any letter case, with any surrounding text, routes to product review |
| Router.ValidateRoutingCategory | agent/router_agent.py:81-85 | the result is always valid; a valid input is returned unchanged; `product_review` only comes from input that normalizes to it |
| Router.ValidateIdempotent | agent/router_agent.py:81-85 | validating a validated category changes nothing |
| Router.ValidateAcceptsPadded | agent/router_agent.py:84-85 | a valid name in any letter case, padded with whitespace, is accepted as its lower-case form |
| Router.ValidateRejectsInvalid | agent/router_agent.py:85 | input whose normalized form is not a valid name becomes `generic` |
| Router.DispatchExclusive | agent/router_agent.py:23-30 | the two dispatch predicates never both hold, and one holds exactly when the router response is a valid name |
| Router.ShouldProcessProductReview | agent/router_agent.py:23-25 | holds exactly when the router response is present, is a valid name, and names the product-review category |
| Router.ShouldProcessGeneric | agent/router_agent.py:28-30 | holds exactly when the router response is present, is a valid name, and names the generic category |
| Router.GetRoutingMetadata | agent/router_agent.py:73-78 | the metadata records the thread id and the category unchanged |
| Router.RouteQuery | agent/router_agent.py:99-117 | the decision's category is valid and repeated in metadata for the thread; it is product review exactly when the classifier's reply mentions the token |
| Router.RouterFallback | agent/router_agent.py:119-124 | the exception path gives a well-formed `generic` decision for the thread |
| Planning.InitializeState | agent/planning_agent.py:40-43 | a fresh state has no messages and none of the optional keys |
| Planning.GetProductInfo | agent/planning_agent.py:45-58 | the update has exactly one key: `product_info` exactly when the handler returned a reply with a review and no error, otherwise `error` carrying the handler's error, the exception text, or the missing-key error |
| Planning.ComposeResponse | agent/planning_agent.py:60-74 | it raises exactly when the configuration has no thread id; otherwise its only key is `final_response`, holding product info first, then the generic answer, then the fixed apology |
| Planning.ThreadId | agent/planning_agent.py:62 | absent when the configuration has no `configurable` entry or that entry has no `thread_id`, otherwise the `thread_id` value; `Planning.ComposeResponse` raises exactly when it is absent, as the double subscript does |
| Planning.ShouldProcessProductReview | agent/planning_agent.py:80-82 | holds exactly when the state's router response is a valid name whose handler is `get_product_info` |
| Planning.ShouldProcessGeneric | agent/planning_agent.py:84-86 | holds exactly when the state's router response is a valid name whose handler is `handle_generic_query` |
| Planning.AgentGraph | agent/planning_agent.py:93-114 | only `route_query` has guarded edges, and no edge enters the entry or leaves `end`; `Planning.FixedEdges` and `Planning.RouteQueryEdges` fix every node's successors |
| Planning.FixedEdges | agent/planning_agent.py:108-114 | entry leads only to `route_query`, each handler only to `compose_response`, that node only to `end`, and nothing leaves `end` |
| Planning.RouteQueryEdges | agent/planning_agent.py:80-106 | out of `route_query`, the product edge is enabled exactly when the router response is `product_review`, the generic edge exactly when it is `generic`; a valid response enables one edge and anything else enables none |
| Planning.TraversalWithValidCategory | agent/planning_agent.py:99-114 | with a valid router response, the only traversal is entry, `route_query`, that category's handler, `compose_response`, `end`, with no node repeated |
| Planning.TraversalWithoutValidCategory | agent/planning_agent.py:99-106 | without a valid router response, every traversal stops at `route_query` |
| Planning.ValidRunIsTraversal | agent/planning_agent.py:99-114 | the run through a category's handler is a traversal, so a valid turn reaches `end` |
| Planning.HandlerOnPath | agent/planning_agent.py:99-114 | with a valid router response exactly one handler runs, the product handler exactly when the response is `product_review`, and the run ends at `end` |
| Planning.RouteQueryUpdate | agent/router_agent.py:114-117 | the routing node writes a valid category and metadata repeating it for the thread under their own keys, the category is `product_review` exactly when the reply mentions the token, and the router response and every other key are left as they were |
| Planning.RoutedTurnAsWritten | agent/planning_agent.py:80-106 | from a state without a router response, the routing update leaves every traversal stuck at `route_query`, whatever the classifier replies |
| Planning.IntendedRoutedState | agent/planning_agent.py:80-106 | the corrected wiring: the routing node's category also becomes the router response, which is then valid, and no other key changes |
| Planning.IntendedRoutedTurn | agent/planning_agent.py:94-114 | with the corrected wiring, the run through the routed category's handler is a traversal; every traversal ends at `end`, the product handler runs exactly when the classifier's reply mentions `product_review`, and the generic handler runs otherwise |
| Composer.RemoveSystemArtifacts | agent/composer_agent.py:40-49 | the cleaned text has no quote character and no surrounding whitespace, and every character it holds comes from the input |
| Composer.RemoveArtifactsOfCleanText | agent/composer_agent.py:42-49 | text with no role prefix and no quote is only trimmed |
| Composer.DeleteAll | agent/composer_agent.py:42-45 | deleting the patterns in turn never lengthens the text; `Composer.DeleteAllChars` and `Composer.DeleteAllAbsent` say which characters can remain and when nothing changes |
| Composer.DeleteAllChars | agent/composer_agent.py:44-45 | deleting the role prefixes introduces no character |
| Composer.DeleteAllAbsent | agent/composer_agent.py:44-45 | deleting prefixes that do not occur changes nothing |
| Composer.QuoteRemovalOfQuoteFree | agent/composer_agent.py:47 | removing quotes from quote-free text changes nothing |
| Composer.DeleteLeading | agent/composer_agent.py:45 | deleting a leading pattern that does not recur removes exactly that prefix |
| Composer.CollapseBlankLines | agent/composer_agent.py:55 | the result is never longer, and text without three consecutive newlines is unchanged; `Pieces.ReplaceIsJoinOfSplit` fixes the value as the pieces between occurrences joined by two newlines |
| Composer.CapitalizeSegments | agent/composer_agent.py:58 | there is one segment per `". "`-separated piece; each is trimmed, capitalized, equal to its piece up to letter case, and free of the separator |
| Composer.EnsureEnding | agent/composer_agent.py:61-62 | at most a `.` is added, only to non-empty text, and the result ends in `.`, `!` or `?` |
| Composer.EnsureEndingIdempotent | agent/composer_agent.py:61-62 | fixing the ending twice is the same as once |
| Composer.FormatResponse | agent/composer_agent.py:52-64 | empty text stays empty; any other result ends in terminal punctuation |
| Composer.FormatSegmentsRoundTrip | agent/composer_agent.py:58 | splitting the joined sentences on `". "` gives back exactly the capitalized segments |
| Composer.FormatIntroducesNoOtherChar | agent/composer_agent.py:52-64 | formatting adds no character other than `.`, space, newline and letter-case variants |
| Composer.FormatKeepsQuoteFree | agent/composer_agent.py:52-64 | formatting quote-free text yields quote-free text |
| Composer.FormatSingleSentence | agent/composer_agent.py:55-63 | a trimmed text with no newline and no separator is formatted as one capitalized sentence |
| Composer.ComposeText | agent/composer_agent.py:24-33 | the composed text has no quotes, is empty when the input is, and otherwise ends in terminal punctuation |
| Composer.FinalQuoteStripIsNoOp | agent/composer_agent.py:33 | the closing quote strip never changes the formatted text |
| Composer.ComposeResponse | agent/composer_agent.py:10-33 | an error dict returns its `response` (default `An error occurred`) untouched; any other dict composes its `response` (default empty); a string is composed, giving quote-free, terminally punctuated text |
| Composer.ComposeEmptyIff | agent/composer_agent.py:26-33 | the answer is empty exactly when nothing survives artifact and quote removal and trimming |
| Composer.ComposeCleanText | agent/composer_agent.py:26-33 | clean text is trimmed and then formatted |
| Composer.LowerCaseRolePrefixSurvives | agent/composer_agent.py:40-64 | `"assistant: the phone costs $299"` composes to `"Assistant: the phone costs $299."` |
| Composer.ComposeNotIdempotent | agent/composer_agent.py:40-64 | composing that answer again gives `"The phone costs $299."`, which differs from the first pass |
| Text.Strip | agent/composer_agent.py:49 | the result has no surrounding whitespace and is no longer than the input; `Text.StripBounds` and `Text.StripPadded` fix which slice it is |
| Text.LowerStr | agent/router_agent.py:62 | lower-casing keeps the length; `Text.LowerStrCharacterised` with `Text.LowerUnique` fixes the value |
| Text.LowerStrCharacterised | agent/router_agent.py:62 | lower-casing leaves no capital, maps each character to one that upper-cases like it, keeps every non-letter, and is idempotent |
| Text.LowerUnique | agent/router_agent.py:62 | the lower-cased text is the only text of its length with no capital whose characters upper-case like the input's |
| Text.Capitalize | agent/composer_agent.py:58 | capitalizing keeps the length; `Text.CapitalizeCharacterised` and `Text.CapitalizeUnique` fix the value |
| Text.Contains | agent/router_agent.py:64 | the empty pattern occurs in every text and no longer pattern occurs in a shorter text; `Text.IndexOfLeftmost` ties it to the leftmost search |
| Text.IndexOf | agent/composer_agent.py:58 | the leftmost search that `split` performs finds an occurrence inside the text; `Text.IndexOfLeftmost` fixes which one |
| Text.Replace | agent/composer_agent.py:45-47 | replacing with no longer text never lengthens; `Text.ReplaceAbsent`, `Text.ReplaceChars` and `Pieces.ReplaceIsJoinOfSplit` fix the value |
| Text.StripBounds | agent/composer_agent.py:49 | `strip()` cuts off exactly the whitespace runs at both ends |
| Text.StripPadded | agent/composer_agent.py:49 | trimming text padded with whitespace recovers the trimmed text |
| Text.StripStripped | agent/router_agent.py:84 | trimming already trimmed text changes nothing |
| Text.CapitalizeCharacterised | agent/composer_agent.py:58 | `capitalize()` changes only letter case, upper-casing the first character and lower-casing the rest |
| Text.CapitalizeUnique | agent/composer_agent.py:58 | any text of that form is the capitalization |
| Text.CapitalizeKeepsStripped | agent/composer_agent.py:58 | capitalizing trimmed text keeps it trimmed |
| Text.IndexOfLeftmost | agent/composer_agent.py:58 | `find` returns the leftmost occurrence, and nothing exactly when the pattern does not occur |
| Text.ContainsStripIff | agent/router_agent.py:62-64 | a token without whitespace occurs in the trimmed reply exactly when it occurs in the reply |
| Text.ReplaceAbsent | agent/composer_agent.py:45 | replacing a pattern that does not occur changes nothing |
| Text.DeleteCharRemovesAll | agent/composer_agent.py:47 | deleting a character leaves no occurrence of it |
| Text.ReplaceChars | agent/composer_agent.py:45-47 | every character of a replacement result comes from the input or the replacement |
| Text.StripChar | agent/composer_agent.py:33 | `strip(c)` leaves text without `c` unchanged, and its result neither starts nor ends with `c` |
| Text.StripCharBounds | agent/composer_agent.py:33 | `strip(c)` cuts off exactly the runs of `c` at both ends |
| Pieces.Split | agent/composer_agent.py:58 | a split has at least one piece; for a two-character separator of distinct characters, such as `". "`, `Pieces.SplitJoin` with `Pieces.JoinSplit` and `Pieces.SplitPiecesLackSeparator` fixes the pieces, and for any separator `Text.IndexOfLeftmost` fixes where each cut falls |
| Pieces.Join | agent/composer_agent.py:58 | joining nothing gives the empty string, and a join starts with its first piece; `Pieces.SplitJoin` inverts it |
| Pieces.JoinSplit | agent/composer_agent.py:58 | joining the pieces of a split with the separator rebuilds the text |
| Pieces.SplitJoin | agent/composer_agent.py:58 | for a two-character separator with distinct characters, such as `". "`, splitting a join of separator-free pieces gives the pieces back |
| Pieces.SplitPiecesLackSeparator | agent/composer_agent.py:58 | no piece of a split contains the separator |
| Pieces.ReplaceIsJoinOfSplit | agent/composer_agent.py:45 | replacing a pattern is splitting on it and joining with the replacement |

## Left out

- The language-model client, the prompt text and `HumanMessage`: the classifier's reply, or the exception it raised, is an input.
- Router.PlanningRouteQuery: takes only the classifier's outcome, because the `message` and `thread_id` parameters only feed the prompt and logging.
- `log_routing_decision` and all logging: these have no effect on results.
- `process_generic_query` and the product review agent are external handlers. The product handler's reply is an input; the generic handler is only a graph node.
- Graph library internals: compiling the graph, the `MemorySaver` checkpointer that keeps state between turns, and the `add_messages` reducer. Merging a node's update into the state is modelled only for the routing node, as a record update. The traversal lemmas take the dispatch-time state as given.
- `app.py` and the rest of the repository outside the three agent modules.
- Composer.ComposeResponse: models dicts whose values are strings only. A non-string `response` and the `str(response_data)` fallback of the composer's exception handler (lines 35-37) are not modelled, since every step on string input is total.
- Planning.ComposeResponse: models only the missing-thread-id `KeyError`, by a fixed label rather than Python's key text. Its `except` branch (lines 76-78) cannot be reached by the modelled steps.
- Router.RouterFallback: models the result of the exception path, but not which failures lead to it. With the classifier's failures absorbed by `planning_route_query`, nothing on the normal path raises.
- Text.Capitalize: covers ASCII letters only. Python's Unicode case mapping, including characters whose case mapping changes length, is not modelled; the same holds for Text.LowerStr.
- Concurrency between turns and between sessions: the code has none of its own.

## Findings

| source | as written | input that shows it | evidently intended | confidence | as-written member | corrected member |
|---|---|---|---|---|---|---|
| agent/planning_agent.py:80-106 | the routing node's decision lands under `"category"`, while the edges out of `route_query` test `"router_response"`, which no node writes | any turn from a fresh state, e.g. a classifier reply of `product_review` | the routing category becomes the router response, so the turn runs one handler, `compose_response` and `end` (the planning prompt says `route_query` determines `router_response`) | medium, not executed | Planning.RoutedTurnAsWritten | Planning.IntendedRoutedTurn |

=== FILE: composer.dfy ===
/** The response composer: cleans a handler's answer text and formats it
    into sentences for display. */
module Composer {
  import opened Outcomes
  import opened Text
  import opened Pieces

  /** The role-prefix tokens deleted from an answer, in deletion order. */
  const Artifacts: seq<string> := ["Assistant:", "AI:", "Human:", "User:"]

  /** The literal sentence separator used to split and re-join an answer. */
  const SentenceSeparator: string := ". "

  /** Returned for an error payload that carries no `"response"` text. */
  const ErrorDefault: string := "An error occurred"

  /** A handler's answer: plain text, or a dict with `"status"` and
      `"response"` entries. */
  datatype ResponseData = TextData(text: string) | DictData(fields: map<string, string>)

  predicate QuoteFree(s: string) {
    '"' !in s && '\'' !in s
  }

  predicate IsTerminal(c: char) {
    c == '.' || c == '!' || c == '?'
  }

  predicate EndsTerminal(s: string) {
    |s| > 0 && IsTerminal(s[|s| - 1])
  }

  // ---------------------------------------------------------------------
  // remove_system_artifacts
  // ---------------------------------------------------------------------

  /** Deletes every occurrence of each pattern in turn. */
  function DeleteAll(s: string, pats: seq<string>): (r: string)
    requires forall k :: 0 <= k < |pats| ==> |pats[k]| > 0
    ensures |r| <= |s|
    decreases |pats|
  {
    if |pats| == 0 then s else DeleteAll(Replace(s, pats[0], ""), pats[1..])
  }

  lemma {:induction false} DeleteAllChars(s: string, pats: seq<string>, c: char)
    requires forall k :: 0 <= k < |pats| ==> |pats[k]| > 0
    requires c in DeleteAll(s, pats)
    ensures c in s
    decreases |pats|
  {
    if |pats| > 0 {
      DeleteAllChars(Replace(s, pats[0], ""), pats[1..], c);
      ReplaceChars(s, pats[0], "", c);
    }
  }

  lemma {:induction false} DeleteAllAbsent(s: string, pats: seq<string>)
    requires forall k :: 0 <= k < |pats| ==> |pats[k]| > 0 && !Contains(s, pats[k])
    ensures DeleteAll(s, pats) == s
    decreases |pats|
  {
    if |pats| > 0 {
      ReplaceAbsent(s, pats[0], "");
      DeleteAllAbsent(s, pats[1..]);
    }
  }

  /** Deletes the four role prefixes, then every double and single quote,
      then trims whitespace. The result has no quote character, no
      surrounding whitespace, and only characters of the input. */
  function RemoveSystemArtifacts(text: string): (r: string)
    ensures QuoteFree(r)
    ensures Stripped(r)
    ensures forall c :: c in r ==> c in text
  {
    var noArtifacts := DeleteAll(text, Artifacts);
    var noDouble := Replace(noArtifacts, "\"", "");
    var noQuotes := Replace(noDouble, "'", "");
    var r := Strip(noQuotes);
    DeleteCharRemovesAll(noArtifacts, '"');
    DeleteCharRemovesAll(noDouble, '\'');
    assert forall c :: c in r ==> c in text by {
      forall c | c in r ensures c in text {
        StripChars(noQuotes, c);
        ReplaceChars(noDouble, "'", "", c);
        ReplaceChars(noArtifacts, "\"", "", c);
        DeleteAllChars(text, Artifacts, c);
      }
    }
    assert '"' !in r by {
      if '"' in r {
        StripChars(noQuotes, '"');
        ReplaceChars(noDouble, "'", "", '"');
      }
    }
    assert '\'' !in r by {
      if '\'' in r {
        StripChars(noQuotes, '\'');
      }
    }
    r
  }

  /** Text with no role prefix and no quote character is only trimmed. */
  lemma RemoveArtifactsOfCleanText(text: string)
    requires forall k :: 0 <= k < |Artifacts| ==> !Contains(text, Artifacts[k])
    requires QuoteFree(text)
    ensures RemoveSystemArtifacts(text) == Strip(text)
  {
    DeleteAllAbsent(text, Artifacts);
    QuoteRemovalOfQuoteFree(text);
  }

  /** Removing quotes from quote-free text changes nothing. */
  lemma QuoteRemovalOfQuoteFree(text: string)
    requires QuoteFree(text)
    ensures Replace(Replace(text, "\"", ""), "'", "") == text
  {
    NotContainsChar(text, '"');
    ReplaceAbsent(text, "\"", "");
    NotContainsChar(text, '\'');
    ReplaceAbsent(text, "'", "");
  }

  /** Deleting a leading pattern that does not recur removes just that
      prefix. */
  lemma DeleteLeading(pat: string, rest: string)
    requires |pat| > 0 && !Contains(rest, pat)
    ensures Replace(pat + rest, pat, "") == rest
  {
    var s := pat + rest;
    assert s[..|pat|] == pat && s[|pat|..] == rest;
    ReplaceAbsent(rest, pat, "");
  }

  // ---------------------------------------------------------------------
  // format_response
  // ---------------------------------------------------------------------

  /** Rewrites each non-overlapping occurrence of three newlines, left to
      right, to two: four newlines become three. */
  function CollapseBlankLines(text: string): (r: string)
    ensures |r| <= |text|
    ensures !Contains(text, "\n\n\n") ==> r == text
  {
    assert !Contains(text, "\n\n\n") ==> Replace(text, "\n\n\n", "\n\n") == text by {
      if !Contains(text, "\n\n\n") {
        ReplaceAbsent(text, "\n\n\n", "\n\n");
      }
    }
    Replace(text, "\n\n\n", "\n\n")
  }

  /** The `". "`-separated pieces of `text`, each trimmed and capitalized.
      Each piece keeps its letters up to case, has no surrounding
      whitespace, and contains no separator. */
  function CapitalizeSegments(text: string): (r: seq<string>)
    ensures |r| == |Split(text, SentenceSeparator)|
    ensures forall k :: 0 <= k < |r| ==>
      && Stripped(r[k])
      && IsCapitalized(r[k])
      && LowerStr(r[k]) == LowerStr(Strip(Split(text, SentenceSeparator)[k]))
      && !Contains(r[k], SentenceSeparator)
  {
    var parts := Split(text, SentenceSeparator);
    var r := seq(|parts|, k requires 0 <= k < |parts| => Capitalize(Strip(parts[k])));
    SplitPiecesLackSeparator(text, SentenceSeparator);
    forall k | 0 <= k < |r|
      ensures Stripped(r[k]) && IsCapitalized(r[k])
      ensures LowerStr(r[k]) == LowerStr(Strip(parts[k]))
      ensures !Contains(r[k], SentenceSeparator)
    {
      SegmentFacts(parts[k]);
    }
    r
  }

  lemma SegmentFacts(p: string)
    requires !Contains(p, SentenceSeparator)
    ensures Stripped(Capitalize(Strip(p))) && IsCapitalized(Capitalize(Strip(p)))
    ensures LowerStr(Capitalize(Strip(p))) == LowerStr(Strip(p))
    ensures !Contains(Capitalize(Strip(p)), SentenceSeparator)
  {
    var q := Strip(p);
    CapitalizeCharacterised(q);
    CapitalizeKeepsStripped(q);
    NotContainsStrip(p, SentenceSeparator);
    NotContainsCapitalize(q, SentenceSeparator);
  }

  /** Appends `'.'` unless the text is empty or already ends in `.`, `!`
      or `?`: at most one character is added, and only when needed. */
  function EnsureEnding(t: string): (r: string)
    ensures r == t || r == t + "."
    ensures EndsTerminal(t) ==> r == t
    ensures t == "" <==> r == ""
    ensures r != "" ==> EndsTerminal(r)
  {
    if |t| > 0 && !IsTerminal(t[|t| - 1]) then t + "." else t
  }

  lemma EnsureEndingIdempotent(t: string)
    ensures EnsureEnding(EnsureEnding(t)) == EnsureEnding(t)
  {
  }

  /** The capitalized sentences before the ending is fixed. */
  function JoinedSentences(text: string): string {
    Join(CapitalizeSegments(CollapseBlankLines(text)), SentenceSeparator)
  }

  /** Python `format_response`: blank-line collapsing, per-sentence
      capitalization, and a terminal punctuation mark. */
  function FormatResponse(text: string): (r: string)
    ensures text == "" ==> r == ""
    ensures r != "" ==> EndsTerminal(r)
  {
    assert text == "" ==> JoinedSentences(text) == "" by {
      if text == "" {
        assert Split("", SentenceSeparator) == [""] by {
          assert IndexOf("", SentenceSeparator).None?;
        }
        var segs := CapitalizeSegments(CollapseBlankLines(text));
        assert |segs| == 1 && segs[0] == "";
      }
    }
    EnsureEnding(JoinedSentences(text))
  }

  /** Splitting the formatted sentences on `". "` gives back exactly the
      trimmed, capitalized pieces: the separators the formatter writes are
      the only ones in its output. */
  lemma FormatSegmentsRoundTrip(text: string)
    ensures Split(JoinedSentences(text), SentenceSeparator) == CapitalizeSegments(CollapseBlankLines(text))
  {
    SplitJoin(CapitalizeSegments(CollapseBlankLines(text)), SentenceSeparator);
  }

  /** Formatting introduces no character other than `.`, space, newline and
      letter-case variants: any other character absent from the input is
      absent from the output. */
  lemma FormatIntroducesNoOtherChar(text: string, c: char)
    requires c !in text && !IsAsciiLetter(c) && c != '.' && c != ' ' && c != '\n'
    ensures c !in FormatResponse(text)
  {
    var collapsed := CollapseBlankLines(text);
    var parts := Split(collapsed, SentenceSeparator);
    var segs := CapitalizeSegments(collapsed);
    var joined := Join(segs, SentenceSeparator);
    if c in collapsed {
      ReplaceChars(text, "\n\n\n", "\n\n", c);
    }
    forall k | 0 <= k < |segs| ensures c !in segs[k] {
      if c in segs[k] {
        var i :| 0 <= i < |segs[k]| && segs[k][i] == c;
        CapitalizeNonLetterAt(Strip(parts[k]), i);
        StripChars(parts[k], c);
        SplitChars(collapsed, SentenceSeparator, k, c);
      }
    }
    if c in joined {
      JoinCharsFrom(segs, SentenceSeparator, c);
    }
  }

  // ---------------------------------------------------------------------
  // compose_response
  // ---------------------------------------------------------------------

  /** The string path of `compose_response`: clean, format, then strip any
      surrounding double and single quotes. */
  function ComposeText(text: string): (r: string)
    ensures QuoteFree(r)
    ensures r != "" ==> EndsTerminal(r)
    ensures text == "" ==> r == ""
  {
    var cleaned := RemoveSystemArtifacts(text);
    var formatted := FormatResponse(cleaned);
    FormatKeepsQuoteFree(cleaned);
    assert StripChar(formatted, '"') == formatted;
    assert StripChar(formatted, '\'') == formatted;
    StripChar(StripChar(formatted, '"'), '\'')
  }

  lemma FormatKeepsQuoteFree(text: string)
    requires QuoteFree(text)
    ensures QuoteFree(FormatResponse(text))
  {
    FormatIntroducesNoOtherChar(text, '"');
    FormatIntroducesNoOtherChar(text, '\'');
  }

  /** The closing quote strip never changes anything: the formatted text
      has no quote left to strip. */
  lemma FinalQuoteStripIsNoOp(text: string)
    ensures ComposeText(text) == FormatResponse(RemoveSystemArtifacts(text))
  {
    var formatted := FormatResponse(RemoveSystemArtifacts(text));
    FormatKeepsQuoteFree(RemoveSystemArtifacts(text));
    assert StripChar(formatted, '"') == formatted;
  }

  /** Python `compose_response` on a string or a dict of strings. An error
      payload's text is returned untouched; anything else is cleaned and
      formatted. */
  function ComposeResponse(data: ResponseData): (r: string)
    ensures data.DictData? && Lookup(data.fields, "status") == Some("error") ==>
      r == Lookup(data.fields, "response").GetOr(ErrorDefault)
    ensures data.DictData? && Lookup(data.fields, "status") != Some("error") ==>
      r == ComposeText(Lookup(data.fields, "response").GetOr(""))
    ensures data.TextData? ==> r == ComposeText(data.text)
    ensures data.TextData? ==> QuoteFree(r) && (r != "" ==> EndsTerminal(r))
    ensures data == TextData("") ==> r == ""
  {
    match data
    case DictData(fields) =>
      if Lookup(fields, "status") == Some("error") then
        Lookup(fields, "response").GetOr(ErrorDefault)
      else
        ComposeText(Lookup(fields, "response").GetOr(""))
    case TextData(text) =>
      ComposeText(text)
  }

  // ---------------------------------------------------------------------
  // Consequences for whole answers
  // ---------------------------------------------------------------------

  /** Strip keeps a text whose first character is not whitespace non-empty. */
  lemma StripKeepsNonEmpty(s: string)
    requires |s| > 0 && !IsSpace(s[0])
    ensures Strip(s) != ""
  {
    var i, j := StripBounds(s);
  }

  /** Collapsing blank lines keeps a leading character that is not a newline. */
  lemma CollapseKeepsFirst(s: string)
    requires |s| > 0 && s[0] != '\n'
    ensures |CollapseBlankLines(s)| > 0 && CollapseBlankLines(s)[0] == s[0]
  {
    if |s| >= 3 {
      assert s[..3][0] == s[0];
    }
  }

  lemma JoinOfSeveralNonEmpty(parts: seq<string>, sep: string)
    requires |parts| >= 2 && |sep| > 0
    ensures Join(parts, sep) != ""
  {
  }

  /** The composer answers with the empty string exactly when nothing is
      left of the text once role prefixes, quotes and surrounding whitespace
      are removed. */
  lemma ComposeEmptyIff(text: string)
    ensures ComposeText(text) == "" <==> RemoveSystemArtifacts(text) == ""
  {
    var cleaned := RemoveSystemArtifacts(text);
    if cleaned != "" {
      var collapsed := CollapseBlankLines(cleaned);
      CollapseKeepsFirst(cleaned);
      var parts := Split(collapsed, SentenceSeparator);
      var segs := CapitalizeSegments(collapsed);
      if |parts| == 1 {
        JoinSplit(collapsed, SentenceSeparator);
        assert parts[0] == collapsed;
        StripKeepsNonEmpty(collapsed);
        assert |segs[0]| == |Strip(parts[0])|;
        assert JoinedSentences(cleaned) == segs[0];
      } else {
        JoinOfSeveralNonEmpty(segs, SentenceSeparator);
      }
      assert FormatResponse(cleaned) != "";
      FormatKeepsQuoteFree(cleaned);
    }
  }

  /** Clean text (no role prefix, no quote) is only trimmed before it is
      formatted. */
  lemma ComposeCleanText(s: string)
    requires forall k :: 0 <= k < |Artifacts| ==> !Contains(s, Artifacts[k])
    requires QuoteFree(s)
    ensures ComposeText(s) == FormatResponse(Strip(s))
  {
    RemoveArtifactsOfCleanText(s);
    FinalQuoteStripIsNoOp(s);
  }

  /** A trimmed text with no newline and no sentence separator is formatted
      as one capitalized sentence. */
  lemma FormatSingleSentence(s: string)
    requires '\n' !in s && !Contains(s, SentenceSeparator) && Stripped(s)
    ensures FormatResponse(s) == EnsureEnding(Capitalize(s))
  {
    NotContainsMissingChar(s, "\n\n\n", 0);
    ReplaceAbsent(s, "\n\n\n", "\n\n");
    IndexOfLeftmost(s, SentenceSeparator);
    assert Split(s, SentenceSeparator) == [s];
    StripStripped(s);
    assert CapitalizeSegments(s) == [Capitalize(s)];
  }

  /** The lower-case role prefix in `"assistant: the phone costs $299"` is
      not removed, since removal is case-sensitive; capitalization then
      turns it into the prefix `"Assistant:"`. */
  lemma LowerCaseRolePrefixSurvives(s: string)
    requires s == "assistant: the phone costs $299"
    ensures ComposeText(s) == "Assistant: the phone costs $299."
  {
    LowerPrefixAnswerClean(s);
    ComposeCleanText(s);
    LowerPrefixAnswerFormatted(s, "Assistant: the phone costs $299", "Assistant: the phone costs $299.");
  }

  // The steps of the example above, each on the literals themselves.

  lemma LowerPrefixAnswerFormatted(s: string, x: string, y: string)
    requires s == "assistant: the phone costs $299"
    requires x == "Assistant: the phone costs $299" && y == "Assistant: the phone costs $299."
    ensures FormatResponse(Strip(s)) == y
  {
    LowerPrefixAnswerShape(s, x, y);
    StripStripped(s);
    FormatSingleSentence(s);
    LowerPrefixAnswerCapitalized(s, x);
  }

  lemma LowerPrefixAnswerShape(s: string, x: string, y: string)
    requires s == "assistant: the phone costs $299"
    requires x == "Assistant: the phone costs $299" && y == "Assistant: the phone costs $299."
    ensures Stripped(s) && '\n' !in s && !Contains(s, SentenceSeparator)
    ensures y == x + "." && !EndsTerminal(x)
  {
    NotContainsMissingChar(s, SentenceSeparator, 0);
  }

  lemma LowerPrefixAnswerClean(s: string)
    requires s == "assistant: the phone costs $299"
    ensures forall k | 0 <= k < |Artifacts| :: !Contains(s, Artifacts[k])
    ensures QuoteFree(s)
  {
    forall k | 0 <= k < |Artifacts| ensures !Contains(s, Artifacts[k]) {
      NotContainsMissingChar(s, Artifacts[k], 0);
    }
  }

  lemma LowerPrefixAnswerCapitalized(s: string, x: string)
    requires s == "assistant: the phone costs $299" && x == "Assistant: the phone costs $299"
    ensures Capitalize(s) == x
  {
    assert LowerStr(x) == LowerStr(s);
    CapitalizeUnique(s, x);
  }

  /** Composing is not idempotent: composing the answer above a second
      time deletes the now capitalized role prefix. */
  lemma ComposeNotIdempotent(s: string)
    requires s == "assistant: the phone costs $299"
    ensures ComposeText(ComposeText(s)) == "The phone costs $299."
    ensures ComposeText(ComposeText(s)) != ComposeText(s)
  {
    LowerCaseRolePrefixSurvives(s);
    var once := "Assistant: the phone costs $299.";
    var body := "the phone costs $299.";
    RecomposedAnswerCleaned(once, " the phone costs $299.", body);
    FinalQuoteStripIsNoOp(once);
    RecomposedBodyFormatted(body, "The phone costs $299.");
  }

  // The steps of composing that answer again.

  lemma RecomposedAnswerCleaned(s: string, rest: string, body: string)
    requires s == "Assistant: the phone costs $299."
    requires rest == " the phone costs $299." && body == "the phone costs $299."
    ensures RemoveSystemArtifacts(s) == body
  {
    RecomposedPrefixDeleted(s, rest);
    RecomposedRestClean(rest);
    RecomposedRestUnquoted(rest);
    assert Stripped(body) && rest == " " + body;
    CleaningDropsPrefix(s, rest, body);
  }

  /** Cleaning a text whose only artifact is a leading `Assistant:` that
      leaves one space in front of a trimmed body yields the body. */
  lemma CleaningDropsPrefix(s: string, rest: string, body: string)
    requires Replace(s, Artifacts[0], "") == rest && rest == " " + body
    requires DeleteAll(rest, Artifacts[1..]) == rest
    requires Replace(Replace(rest, "\"", ""), "'", "") == rest
    requires Stripped(body)
    ensures RemoveSystemArtifacts(s) == body
  {
    assert DeleteAll(s, Artifacts) == rest;
    assert AllSpace(" ") by { assert " "[0] == ' '; }
    StripPadded(" ", body, "");
    assert " " + body + "" == rest;
  }

  lemma RecomposedPrefixDeleted(s: string, rest: string)
    requires s == "Assistant: the phone costs $299." && rest == " the phone costs $299."
    ensures Replace(s, Artifacts[0], "") == rest
  {
    assert s == Artifacts[0] + rest;
    NotContainsMissingChar(rest, Artifacts[0], 0);
    DeleteLeading(Artifacts[0], rest);
  }

  lemma RecomposedRestClean(rest: string)
    requires rest == " the phone costs $299."
    ensures DeleteAll(rest, Artifacts[1..]) == rest
  {
    forall k | 1 <= k < |Artifacts| ensures !Contains(rest, Artifacts[k]) {
      NotContainsMissingChar(rest, Artifacts[k], 0);
    }
    DeleteAllAbsent(rest, Artifacts[1..]);
  }

  lemma RecomposedRestUnquoted(rest: string)
    requires rest == " the phone costs $299."
    ensures Replace(Replace(rest, "\"", ""), "'", "") == rest
  {
    assert QuoteFree(rest);
    QuoteRemovalOfQuoteFree(rest);
  }

  lemma RecomposedBodyFormatted(body: string, x: string)
    requires body == "the phone costs $299." && x == "The phone costs $299."
    ensures FormatResponse(body) == x
  {
    RecomposedBodyShape(body);
    FormatSingleSentence(body);
    RecomposedBodyCapitalized(body, x);
  }

  lemma RecomposedBodyShape(body: string)
    requires body == "the phone costs $299."
    ensures Stripped(body) && '\n' !in body && !Contains(body, SentenceSeparator)
  {
    forall i | 0 <= i <= |body| - 2 ensures !OccursAt(body, SentenceSeparator, i) {
      assert body[i..i + 2][0] == body[i] && body[i..i + 2][1] == body[i + 1];
    }
  }

  lemma RecomposedBodyCapitalized(body: string, x: string)
    requires body == "the phone costs $299." && x == "The phone costs $299."
    ensures Capitalize(body) == x
  {
    assert LowerStr(x) == LowerStr(body);
    CapitalizeUnique(body, x);
  }
}

=== FILE: outcomes.dfy ===
/** Small value types standing in for Python's `None`, `dict.get` and
    exceptions raised by code outside the model. */
module Outcomes {

  /** A value that may be absent: Python's `None` or a missing dict key. */
  datatype Option<T> = None | Some(value: T) {

    /** The wrapped value, or `default` when absent. */
    function GetOr(default: T): T {
      match this
      case Some(v) => v
      case None => default
    }
  }

  /** The result of a call that may raise: either a returned value or the
      text of the raised exception (`str(e)`). */
  datatype Outcome<T> = Returned(value: T) | Raised(exception: string)

  /** Python `d.get(k)` on a dict modelled as a map. */
  function Lookup<K, V>(m: map<K, V>, k: K): Option<V> {
    if k in m then Some(m[k]) else None
  }
}

=== FILE: pieces.dfy ===
/** Python `str.split` with an explicit separator and `str.join`, and how
    they relate to `str.replace`. */
module Pieces {
  import opened Outcomes
  import opened Text

  /** Python `s.split(sep)` with an explicit separator: the pieces between
      leftmost, non-overlapping occurrences of `sep`. */
  function Split(s: string, sep: string): (parts: seq<string>)
    requires |sep| > 0
    ensures |parts| >= 1
    decreases |s|, 1
  {
    SplitAtIndex(s, sep, IndexOf(s, sep))
  }

  /** The split of `s` given where its leftmost separator is, if anywhere. */
  function SplitAtIndex(s: string, sep: string, idx: Option<nat>): (parts: seq<string>)
    requires |sep| > 0 && (idx.Some? ==> idx.value + |sep| <= |s|)
    ensures |parts| >= 1
    decreases |s|, 0
  {
    if idx.None? then [s]
    else [s[..idx.value]] + Split(s[idx.value + |sep|..], sep)
  }

  /** No piece of a split contains the separator. */
  lemma {:induction false} SplitPiecesLackSeparator(s: string, sep: string)
    requires |sep| > 0
    ensures forall k :: 0 <= k < |Split(s, sep)| ==> !Contains(Split(s, sep)[k], sep)
    decreases |s|
  {
    IndexOfLeftmost(s, sep);
    match IndexOf(s, sep)
    case None =>
    case Some(i) =>
      assert !Contains(s[..i], sep) by {
        forall k | 0 <= k <= i - |sep| ensures !OccursAt(s[..i], sep, k) {
          OccursInSlice(s, sep, 0, i, k);
        }
      }
      SplitAt(s, sep, i);
      SplitPiecesLackSeparator(s[i + |sep|..], sep);
  }

  /** Python `sep.join(parts)`. */
  function Join(parts: seq<string>, sep: string): (r: string)
    ensures |parts| == 0 ==> r == ""
    ensures |parts| > 0 ==> |parts[0]| <= |r| && r[..|parts[0]|] == parts[0]
    decreases |parts|
  {
    if |parts| == 0 then ""
    else if |parts| == 1 then parts[0]
    else parts[0] + sep + Join(parts[1..], sep)
  }

  /** `Split` at a known leftmost separator position. */
  lemma SplitAt(s: string, sep: string, i: nat)
    requires |sep| > 0 && IndexOf(s, sep) == Some(i)
    ensures Split(s, sep) == [s[..i]] + Split(s[i + |sep|..], sep)
  {
    assert Split(s, sep) == SplitAtIndex(s, sep, Some(i));
  }

  lemma JoinCons(p: string, rest: seq<string>, sep: string)
    requires |rest| > 0
    ensures Join([p] + rest, sep) == p + sep + Join(rest, sep)
  {
    assert ([p] + rest)[1..] == rest;
  }

  /** Joining the pieces of a split with the same separator gives back the
      original text. */
  lemma {:induction false} JoinSplit(s: string, sep: string)
    requires |sep| > 0
    ensures Join(Split(s, sep), sep) == s
    decreases |s|
  {
    var idx := IndexOf(s, sep);
    if idx.Some? {
      var i := idx.value;
      var rest := s[i + |sep|..];
      assert s == s[..i] + sep + rest by {
        assert OccursAt(s, sep, i) by { IndexOfLeftmost(s, sep); }
        assert s == s[..i] + s[i..i + |sep|] + rest;
      }
      SplitAt(s, sep, i);
      JoinSplit(rest, sep);
      JoinCons(s[..i], Split(rest, sep), sep);
    }
  }

  /** Splitting undoes a join, for a two-character separator with distinct
      characters (such as `". "`) that no piece contains. */
  lemma {:induction false} SplitJoin(parts: seq<string>, sep: string)
    requires |sep| == 2 && sep[0] != sep[1] && |parts| >= 1
    requires forall k :: 0 <= k < |parts| ==> !Contains(parts[k], sep)
    ensures Split(Join(parts, sep), sep) == parts
    decreases |parts|
  {
    if |parts| == 1 {
      IndexOfLeftmost(parts[0], sep);
    } else {
      var p := parts[0];
      var rest := parts[1..];
      var j := Join(rest, sep);
      var s := Join(parts, sep);
      JoinCons(p, rest, sep);
      assert parts == [p] + rest;
      assert s == p + sep + j;
      assert OccursAt(s, sep, |p|) by {
        assert s[|p|..|p| + 2] == sep;
      }
      forall m | 0 <= m < |p| ensures !OccursAt(s, sep, m) {
        if m + 2 <= |p| {
          assert s[m..m + 2] == p[m..m + 2];
          assert !OccursAt(p, sep, m);
        } else {
          assert s[m..m + 2][1] == s[m + 1] == sep[0];
        }
      }
      IndexOfLeftmost(s, sep);
      var idx := IndexOf(s, sep);
      assert idx == Some(|p|);
      assert Split(s, sep) == [s[..|p|]] + Split(s[|p| + 2..], sep);
      assert s[..|p|] == p;
      assert s[|p| + 2..] == j;
      SplitJoin(rest, sep);
    }
  }

  /** Python's identity `s.replace(pat, rep) == rep.join(s.split(pat))`:
      replacement agrees with the independent split-then-join definition. */
  lemma {:induction false} ReplaceIsJoinOfSplit(s: string, pat: string, rep: string)
    requires |pat| > 0
    ensures Replace(s, pat, rep) == Join(Split(s, pat), rep)
    decreases |s|
  {
    IndexOfLeftmost(s, pat);
    match IndexOf(s, pat)
    case None =>
      ReplaceAbsent(s, pat, rep);
    case Some(i) =>
      var rest := s[i + |pat|..];
      ReplaceSkipsPrefix(s, pat, rep, i);
      assert s[i..][..|pat|] == pat;
      assert s[i..][|pat|..] == rest;
      assert Replace(s[i..], pat, rep) == rep + Replace(rest, pat, rep);
      ReplaceIsJoinOfSplit(rest, pat, rep);
      SplitAt(s, pat, i);
      JoinCons(s[..i], Split(rest, pat), rep);
  }

  lemma SplitChars(s: string, sep: string, k: int, c: char)
    requires |sep| > 0 && 0 <= k < |Split(s, sep)| && c in Split(s, sep)[k]
    ensures c in s
  {
    JoinSplit(s, sep);
    JoinChars(Split(s, sep), sep, k, c);
  }

  /** Every piece of a join appears, character for character, in the result. */
  lemma {:induction false} JoinChars(parts: seq<string>, sep: string, k: int, c: char)
    requires 0 <= k < |parts| && c in parts[k]
    ensures c in Join(parts, sep)
    decreases |parts|
  {
    if k > 0 {
      JoinChars(parts[1..], sep, k - 1, c);
    }
  }

  /** The characters of a join come from its pieces or its separator. */
  lemma {:induction false} JoinCharsFrom(parts: seq<string>, sep: string, c: char)
    requires c in Join(parts, sep)
    ensures c in sep || exists k :: 0 <= k < |parts| && c in parts[k]
    decreases |parts|
  {
    if |parts| > 1 && c !in parts[0] && c !in sep {
      JoinCharsFrom(parts[1..], sep, c);
      var k :| 0 <= k < |parts[1..]| && c in parts[1..][k];
      assert c in parts[k + 1];
    }
  }
}

=== FILE: planning.dfy ===
/** The planning agent: the conversation state, the node functions the
    graph runs, and the fixed graph topology that routes a turn from
    `route_query` through one handler to `compose_response` and `end`. */
module Planning {
  import opened Outcomes
  import opened Text
  import Router

  // ---------------------------------------------------------------------
  // State and node functions
  // ---------------------------------------------------------------------

  datatype Role = Human | Assistant

  datatype Message = Message(role: Role, content: string)

  /** The graph state: the message history plus the optional keys the
      nodes read and write. `category` and `metadata` are the keys the
      routing node returns; `routerResponse` is the key the dispatch
      predicates read. */
  datatype GraphState = GraphState(
    messages: seq<Message>,
    category: Option<string>,
    metadata: Option<Router.RoutingMetadata>,
    routerResponse: Option<string>,
    productInfo: Option<string>,
    genericResponse: Option<string>,
    error: Option<string>,
    finalResponse: Option<string>)

  /** A fresh state: no messages and none of the optional keys. */
  function InitializeState(): (s: GraphState)
    ensures s.messages == []
    ensures s.category.None? && s.metadata.None? && s.routerResponse.None?
    ensures s.productInfo.None? && s.genericResponse.None?
    ensures s.error.None? && s.finalResponse.None?
  {
    GraphState([], None, None, None, None, None, None, None)
  }

  /** The text of the `KeyError` raised when a handler reply has neither an
      `"error"` nor a `"review_response"` entry. */
  const MissingReviewResponse: string := "'review_response'"

  /** Maps the product handler's reply, or the exception it raised, to the
      node's update: exactly one of `"error"` and `"product_info"`. */
  function GetProductInfo(handler: Outcome<map<string, string>>): (u: map<string, string>)
    ensures u.Keys == {"error"} || u.Keys == {"product_info"}
    ensures "product_info" in u <==>
      handler.Returned? && "error" !in handler.value && "review_response" in handler.value
    ensures "product_info" in u ==> u["product_info"] == handler.value["review_response"]
    ensures handler.Raised? ==> u == map["error" := handler.exception]
    ensures handler.Returned? && "error" in handler.value ==> u == map["error" := handler.value["error"]]
    ensures handler.Returned? && "error" !in handler.value && "review_response" !in handler.value ==>
      u == map["error" := MissingReviewResponse]
  {
    match handler
    case Raised(e) => map["error" := e]
    case Returned(response) =>
      if "error" in response then map["error" := response["error"]]
      else if "review_response" in response then map["product_info" := response["review_response"]]
      else map["error" := MissingReviewResponse]
  }

  /** The answer given when neither handler left a response in the state. */
  const CouldNotProcess: string :=
    "I apologize, but I couldn't process your request properly. Please try again."

  /** The run configuration: `config["configurable"]["thread_id"]`. */
  function ThreadId(config: map<string, map<string, string>>): (r: Option<string>)
    ensures "configurable" !in config ==> r.None?
    ensures "configurable" in config ==> r == Lookup(config["configurable"], "thread_id")
  {
    if "configurable" in config && "thread_id" in config["configurable"]
    then Some(config["configurable"]["thread_id"])
    else None
  }

  /** The text of the `KeyError` raised when the configuration lacks a
      thread id. */
  const MissingThreadId: string := "KeyError"

  /** Picks the final response: product information first, then the generic
      answer, then the fixed apology. Raises when the configuration has no
      thread id, since that lookup happens before any fallback applies. */
  function ComposeResponse(state: GraphState, config: map<string, map<string, string>>)
    : (r: Outcome<map<string, string>>)
    ensures r.Returned? <==> ThreadId(config).Some?
    ensures r.Raised? ==> r.exception == MissingThreadId
    ensures r.Returned? ==> r.value.Keys == {"final_response"}
    ensures r.Returned? && state.productInfo.Some? ==>
      r.value["final_response"] == state.productInfo.value
    ensures r.Returned? && state.productInfo.None? && state.genericResponse.Some? ==>
      r.value["final_response"] == state.genericResponse.value
    ensures r.Returned? && state.productInfo.None? && state.genericResponse.None? ==>
      r.value["final_response"] == CouldNotProcess
  {
    if ThreadId(config).None? then Raised(MissingThreadId)
    else
      var response :=
        if state.productInfo.Some? then state.productInfo.value
        else if state.genericResponse.Some? then state.genericResponse.value
        else CouldNotProcess;
      Returned(map["final_response" := response])
  }

  /** `should_process_product_review` on the graph state. */
  predicate ShouldProcessProductReview(state: GraphState)
    ensures ShouldProcessProductReview(state) <==>
      state.routerResponse.Some? && Router.IsValidCategory(state.routerResponse.value)
      && Handler(Router.CategoryOf(state.routerResponse.value)) == GetProductInfoNode
  {
    Router.ShouldProcessProductReview(state.routerResponse)
  }

  /** `should_process_generic` on the graph state. */
  predicate ShouldProcessGeneric(state: GraphState)
    ensures ShouldProcessGeneric(state) <==>
      state.routerResponse.Some? && Router.IsValidCategory(state.routerResponse.value)
      && Handler(Router.CategoryOf(state.routerResponse.value)) == HandleGenericQuery
  {
    Router.ShouldProcessGeneric(state.routerResponse)
  }

  // ---------------------------------------------------------------------
  // Graph topology
  // ---------------------------------------------------------------------

  /** The graph's nodes; `Start` is the entry pseudo-node and `End` the
      terminal one. */
  datatype Node = Start | RouteQuery | GetProductInfoNode | HandleGenericQuery | ComposeResponseNode | End

  /** The dispatch predicates a conditional edge is guarded by. */
  datatype Guard = ProductReviewGuard | GenericGuard

  predicate GuardHolds(g: Guard, state: GraphState) {
    match g
    case ProductReviewGuard => ShouldProcessProductReview(state)
    case GenericGuard => ShouldProcessGeneric(state)
  }

  /** A graph as built edge by edge: unconditional edges, and guarded edges
      out of a node. */
  datatype Graph = Graph(edges: set<(Node, Node)>, conditional: map<Node, set<(Guard, Node)>>)

  /** The graph `setup_agent_graph` builds. */
  function AgentGraph(): (g: Graph)
    ensures g.conditional.Keys == {RouteQuery}
    ensures forall e | e in g.edges :: e.1 != Start && e.0 != End
  {
    Graph(
      {(GetProductInfoNode, ComposeResponseNode),
       (HandleGenericQuery, ComposeResponseNode),
       (ComposeResponseNode, End),
       (Start, RouteQuery)},
      map[RouteQuery := {(ProductReviewGuard, GetProductInfoNode), (GenericGuard, HandleGenericQuery)}])
  }

  /** The nodes reachable in one step from `n` when the dispatch reads
      `state`. */
  function Successors(g: Graph, n: Node, state: GraphState): set<Node> {
    (set e | e in g.edges && e.0 == n :: e.1)
    + (if n in g.conditional
       then set c | c in g.conditional[n] && GuardHolds(c.0, state) :: c.1
       else {})
  }

  /** The handler node a category dispatches to. */
  function Handler(c: Router.Category): Node {
    match c
    case ProductReview => GetProductInfoNode
    case Generic => HandleGenericQuery
  }

  /** The unconditional part of the topology: entry to `route_query`, both
      handlers to `compose_response`, `compose_response` to `end`, and
      nothing out of `end`. */
  lemma FixedEdges(state: GraphState)
    ensures Successors(AgentGraph(), Start, state) == {RouteQuery}
    ensures Successors(AgentGraph(), GetProductInfoNode, state) == {ComposeResponseNode}
    ensures Successors(AgentGraph(), HandleGenericQuery, state) == {ComposeResponseNode}
    ensures Successors(AgentGraph(), ComposeResponseNode, state) == {End}
    ensures Successors(AgentGraph(), End, state) == {}
  {
    var g := AgentGraph();
    assert (GetProductInfoNode, ComposeResponseNode) in g.edges;
    assert (HandleGenericQuery, ComposeResponseNode) in g.edges;
    assert (ComposeResponseNode, End) in g.edges;
    assert (Start, RouteQuery) in g.edges;
  }

  /** Out of `route_query`: to `get_product_info` exactly when the router
      response is `product_review`, to `handle_generic_query` exactly when
      it is `generic`, and nowhere otherwise. */
  lemma RouteQueryEdges(state: GraphState)
    ensures GetProductInfoNode in Successors(AgentGraph(), RouteQuery, state) <==> ShouldProcessProductReview(state)
    ensures HandleGenericQuery in Successors(AgentGraph(), RouteQuery, state) <==> ShouldProcessGeneric(state)
    ensures state.routerResponse.Some? && Router.IsValidCategory(state.routerResponse.value) ==>
      Successors(AgentGraph(), RouteQuery, state) == {Handler(Router.CategoryOf(state.routerResponse.value))}
    ensures !(state.routerResponse.Some? && Router.IsValidCategory(state.routerResponse.value)) ==>
      Successors(AgentGraph(), RouteQuery, state) == {}
  {
    var g := AgentGraph();
    var conds := g.conditional[RouteQuery];
    assert (ProductReviewGuard, GetProductInfoNode) in conds;
    assert (GenericGuard, HandleGenericQuery) in conds;
    assert forall e | e in g.edges :: e.0 != RouteQuery;
  }

  // ---------------------------------------------------------------------
  // Traversals
  // ---------------------------------------------------------------------

  /** If `path` goes on past position `i`, its next node is a successor. */
  predicate EdgeFollowed(g: Graph, state: GraphState, path: seq<Node>, i: nat) {
    i + 1 < |path| ==> path[i + 1] in Successors(g, path[i], state)
  }

  /** `path` follows edges from the entry until a node with no enabled
      edge: one complete run of the graph for a turn whose dispatch reads
      `state`. */
  ghost predicate IsTraversal(g: Graph, state: GraphState, path: seq<Node>) {
    && |path| > 0
    && path[0] == Start
    && (forall i: nat :: EdgeFollowed(g, state, path, i))
    && Successors(g, path[|path| - 1], state) == {}
  }

  /** The run for a turn routed to category `c`. */
  function ValidRun(c: Router.Category): seq<Node> {
    [Start, RouteQuery, Handler(c), ComposeResponseNode, End]
  }

  /** A node with a single successor is not last on a traversal, and the
      traversal moves to that successor. */
  lemma NextNode(state: GraphState, path: seq<Node>, i: nat, m: Node)
    requires IsTraversal(AgentGraph(), state, path) && i < |path|
    requires Successors(AgentGraph(), path[i], state) == {m}
    ensures i + 1 < |path| && path[i + 1] == m
  {
    var g := AgentGraph();
    assert m in Successors(g, path[i], state);
    assert i + 1 < |path|;
    assert EdgeFollowed(g, state, path, i);
  }

  /** A node with no successor ends a traversal. */
  lemma LastNode(state: GraphState, path: seq<Node>, i: nat)
    requires IsTraversal(AgentGraph(), state, path) && i < |path|
    requires Successors(AgentGraph(), path[i], state) == {}
    ensures |path| == i + 1
  {
    assert EdgeFollowed(AgentGraph(), state, path, i);
  }

  /** With a valid router response, every traversal is `route_query`, the
      one handler its category selects, `compose_response`, then `end`:
      four nodes after the entry, none visited twice. */
  lemma TraversalWithValidCategory(state: GraphState, path: seq<Node>)
    requires state.routerResponse.Some? && Router.IsValidCategory(state.routerResponse.value)
    requires IsTraversal(AgentGraph(), state, path)
    ensures path == ValidRun(Router.CategoryOf(state.routerResponse.value))
    ensures |path[1..]| == 4
    ensures forall i, j :: 0 <= i < j < |path| ==> path[i] != path[j]
  {
    var h := Handler(Router.CategoryOf(state.routerResponse.value));
    FixedEdges(state);
    RouteQueryEdges(state);
    NextNode(state, path, 0, RouteQuery);
    NextNode(state, path, 1, h);
    assert Successors(AgentGraph(), h, state) == {ComposeResponseNode};
    NextNode(state, path, 2, ComposeResponseNode);
    NextNode(state, path, 3, End);
    LastNode(state, path, 4);
    assert path == [Start, RouteQuery, h, ComposeResponseNode, End];
    ValidRunDistinct(Router.CategoryOf(state.routerResponse.value));
  }

  /** No node occurs twice on a valid run. */
  lemma ValidRunDistinct(c: Router.Category)
    ensures forall i, j :: 0 <= i < j < |ValidRun(c)| ==> ValidRun(c)[i] != ValidRun(c)[j]
  {
  }

  /** Without a valid router response, no edge out of `route_query` is
      enabled: the only traversal stops there, short of `end`. */
  lemma TraversalWithoutValidCategory(state: GraphState, path: seq<Node>)
    requires !(state.routerResponse.Some? && Router.IsValidCategory(state.routerResponse.value))
    requires IsTraversal(AgentGraph(), state, path)
    ensures path == [Start, RouteQuery]
  {
    FixedEdges(state);
    RouteQueryEdges(state);
    NextNode(state, path, 0, RouteQuery);
    LastNode(state, path, 1);
  }

  /** The run for a valid category is a traversal, so every valid turn
      reaches `end`. */
  lemma ValidRunIsTraversal(state: GraphState)
    requires state.routerResponse.Some? && Router.IsValidCategory(state.routerResponse.value)
    ensures IsTraversal(AgentGraph(), state, ValidRun(Router.CategoryOf(state.routerResponse.value)))
  {
    FixedEdges(state);
    RouteQueryEdges(state);
  }

  /** On a traversal with a valid router response exactly one handler
      runs: the product handler exactly when the response is
      `product_review`. */
  lemma HandlerOnPath(state: GraphState, path: seq<Node>)
    requires state.routerResponse.Some? && Router.IsValidCategory(state.routerResponse.value)
    requires IsTraversal(AgentGraph(), state, path)
    ensures GetProductInfoNode in path <==> state.routerResponse == Some(Router.ProductReviewName)
    ensures HandleGenericQuery in path <==> GetProductInfoNode !in path
    ensures path[|path| - 1] == End
  {
    var c := Router.CategoryOf(state.routerResponse.value);
    TraversalWithValidCategory(state, path);
    assert path == [Start, RouteQuery, Handler(c), ComposeResponseNode, End];
    if c == Router.ProductReview {
      assert path[2] == GetProductInfoNode;
    } else {
      assert path[2] == HandleGenericQuery;
    }
  }

  /** The state after the `route_query` node, as wired: the router's
      decision is merged under its own keys `category` and `metadata`, and
      the `router_response` key the dispatch reads is left as it was. */
  function RouteQueryUpdate(state: GraphState, threadId: string, reply: Outcome<string>): (s: GraphState)
    ensures s.category.Some? && Router.IsValidCategory(s.category.value)
    ensures s.category == Some(Router.ProductReviewName) <==>
      reply.Returned? && Contains(LowerStr(reply.value), Router.ProductReviewName)
    ensures s.metadata == Some(Router.RoutingMetadata(threadId, s.category.value))
    ensures s.routerResponse == state.routerResponse
    ensures s.messages == state.messages && s.productInfo == state.productInfo
    ensures s.genericResponse == state.genericResponse && s.error == state.error
    ensures s.finalResponse == state.finalResponse
  {
    var d := Router.RouteQuery(threadId, reply);
    state.(category := Some(d.category), metadata := Some(d.metadata))
  }

  /** As wired, a turn that starts without a router response (a fresh
      state, say) never leaves `route_query`: whatever the classifier
      replies, no handler, no `compose_response` and no `end` is reached. */
  lemma RoutedTurnAsWritten(threadId: string, reply: Outcome<string>, state: GraphState)
    requires state.routerResponse.None?
    ensures IsTraversal(AgentGraph(), RouteQueryUpdate(state, threadId, reply), [Start, RouteQuery])
    ensures forall path | IsTraversal(AgentGraph(), RouteQueryUpdate(state, threadId, reply), path) ::
      path == [Start, RouteQuery]
  {
    var s := RouteQueryUpdate(state, threadId, reply);
    FixedEdges(s);
    RouteQueryEdges(s);
    assert EdgeFollowed(AgentGraph(), s, [Start, RouteQuery], 0);
    forall path | IsTraversal(AgentGraph(), s, path) ensures path == [Start, RouteQuery] {
      TraversalWithoutValidCategory(s, path);
    }
  }

  /** The evidently intended wiring, which the code does not have: the
      routing node's category also becomes the router response. */
  function IntendedRoutedState(state: GraphState, threadId: string, reply: Outcome<string>): (s: GraphState)
    ensures s.routerResponse.Some? && Router.IsValidCategory(s.routerResponse.value)
    ensures s.routerResponse == RouteQueryUpdate(state, threadId, reply).category
    ensures s.messages == state.messages && s.productInfo == state.productInfo
    ensures s.genericResponse == state.genericResponse && s.error == state.error
    ensures s.finalResponse == state.finalResponse
  {
    var u := RouteQueryUpdate(state, threadId, reply);
    u.(routerResponse := u.category)
  }

  /** Under the intended wiring a routed turn reaches `end`; on every
      traversal the product handler runs exactly when the classifier's
      reply mentions `product_review` in any letter case, and the generic
      handler runs otherwise (including when the classifier raised), never
      both. */
  lemma IntendedRoutedTurn(threadId: string, reply: Outcome<string>, state: GraphState)
    ensures IsTraversal(AgentGraph(), IntendedRoutedState(state, threadId, reply),
      ValidRun(Router.CategoryOf(Router.RouteQuery(threadId, reply).category)))
    ensures forall path | IsTraversal(AgentGraph(), IntendedRoutedState(state, threadId, reply), path) ::
      && path[|path| - 1] == End
      && (GetProductInfoNode in path <==>
          reply.Returned? && Contains(LowerStr(reply.value), Router.ProductReviewName))
      && (HandleGenericQuery in path <==> GetProductInfoNode !in path)
  {
    var s := IntendedRoutedState(state, threadId, reply);
    ValidRunIsTraversal(s);
    forall path | IsTraversal(AgentGraph(), s, path)
      ensures path[|path| - 1] == End
      ensures GetProductInfoNode in path <==>
        reply.Returned? && Contains(LowerStr(reply.value), Router.ProductReviewName)
      ensures HandleGenericQuery in path <==> GetProductInfoNode !in path
    {
      HandlerOnPath(s, path);
    }
  }
}

=== FILE: router.dfy ===
/** The router: reads the classifier's reply into one of two routing
    categories, validates category strings, and decides which handler a
    state is dispatched to. */
module Router {
  import opened Outcomes
  import opened Text

  /** The two routing categories. */
  datatype Category = ProductReview | Generic {

    /** The category's wire name, as stored in state and metadata. */
    function Name(): string {
      match this
      case ProductReview => "product_review"
      case Generic => "generic"
    }
  }

  const ProductReviewName: string := ProductReview.Name()
  const GenericName: string := Generic.Name()

  /** One of the two category names. */
  predicate IsValidCategory(s: string) {
    s == ProductReviewName || s == GenericName
  }

  /** The category a valid name stands for. */
  function CategoryOf(s: string): (c: Category)
    requires IsValidCategory(s)
    ensures c.Name() == s
  {
    if s == ProductReviewName then ProductReview else Generic
  }

  lemma NameIsValid(c: Category)
    ensures IsValidCategory(c.Name()) && CategoryOf(c.Name()) == c
  {
  }

  /** Neither category name contains whitespace or a capital letter, so
      both survive `lower()` and `strip()` unchanged. */
  lemma ValidNamesAreNormalized(s: string)
    requires IsValidCategory(s)
    ensures LowerStr(s) == s && Stripped(s)
    ensures forall k :: 0 <= k < |s| ==> !IsSpace(s[k])
  {
  }

  // ---------------------------------------------------------------------
  // planning_route_query: reading the classifier's reply
  // ---------------------------------------------------------------------

  /** Reads the classifier's reply (or the exception it raised). The reply
      is lower-cased and trimmed; it selects `product_review` exactly when
      that token occurs in it, and `generic` otherwise, including on any
      classifier failure. */
  function PlanningRouteQuery(reply: Outcome<string>): (r: string)
    ensures IsValidCategory(r)
    ensures reply.Raised? ==> r == GenericName
    ensures r == ProductReviewName <==>
      reply.Returned? && Contains(LowerStr(reply.value), ProductReviewName)
  {
    match reply
    case Raised(_) => GenericName
    case Returned(content) =>
      var normalized := Strip(LowerStr(content));
      ValidNamesAreNormalized(ProductReviewName);
      ContainsStripIff(LowerStr(content), ProductReviewName);
      if Contains(normalized, ProductReviewName) then ProductReviewName else GenericName
  }

  /** A reply that names the category with different letter case or
      surrounding words still routes to product review. */
  lemma ReplyMentioningTokenRoutes(prefix: string, token: string, suffix: string)
    requires LowerStr(token) == ProductReviewName
    ensures PlanningRouteQuery(Returned(prefix + token + suffix)) == ProductReviewName
  {
    var reply := prefix + token + suffix;
    var lowered := LowerStr(reply);
    assert lowered[|prefix|..|prefix| + |token|] == LowerStr(token);
    assert OccursAt(lowered, ProductReviewName, |prefix|);
  }

  // ---------------------------------------------------------------------
  // validate_routing_category
  // ---------------------------------------------------------------------

  /** Lower-cases and trims `category`; keeps the result if it is a valid
      name and falls back to `generic` otherwise. */
  function ValidateRoutingCategory(category: string): (r: string)
    ensures IsValidCategory(r)
    ensures IsValidCategory(category) ==> r == category
    ensures r == ProductReviewName ==> Strip(LowerStr(category)) == ProductReviewName
  {
    var normalized := Strip(LowerStr(category));
    assert IsValidCategory(category) ==> normalized == category by {
      if IsValidCategory(category) {
        ValidNamesAreNormalized(category);
        StripStripped(category);
      }
    }
    if IsValidCategory(normalized) then normalized else GenericName
  }

  lemma ValidateIdempotent(category: string)
    ensures ValidateRoutingCategory(ValidateRoutingCategory(category)) == ValidateRoutingCategory(category)
  {
  }

  /** A valid name in any letter case, padded with whitespace, is accepted
      and normalized to that name. */
  lemma ValidateAcceptsPadded(a: string, v: string, b: string)
    requires AllSpace(a) && AllSpace(b) && IsValidCategory(LowerStr(v))
    ensures ValidateRoutingCategory(a + v + b) == LowerStr(v)
  {
    var la, lv, lb := LowerStr(a), LowerStr(v), LowerStr(b);
    assert LowerStr(a + v + b) == la + lv + lb;
    forall k | 0 <= k < |a| ensures IsSpace(la[k]) { CaseMapSpace(a[k]); }
    forall k | 0 <= k < |b| ensures IsSpace(lb[k]) { CaseMapSpace(b[k]); }
    ValidNamesAreNormalized(lv);
    StripPadded(la, lv, lb);
  }

  /** Anything whose normalized form is not a valid name becomes `generic`. */
  lemma ValidateRejectsInvalid(category: string)
    requires !IsValidCategory(Strip(LowerStr(category)))
    ensures ValidateRoutingCategory(category) == GenericName
  {
  }

  // ---------------------------------------------------------------------
  // Dispatch predicates and routing metadata
  // ---------------------------------------------------------------------

  /** `state.get("router_response") == "product_review"`: the response is
      present and names the product-review category. */
  predicate ShouldProcessProductReview(routerResponse: Option<string>)
    ensures ShouldProcessProductReview(routerResponse) <==>
      routerResponse.Some? && IsValidCategory(routerResponse.value)
      && CategoryOf(routerResponse.value) == ProductReview
  {
    routerResponse == Some(ProductReviewName)
  }

  /** `state.get("router_response") == "generic"`: the response is present
      and names the generic category. */
  predicate ShouldProcessGeneric(routerResponse: Option<string>)
    ensures ShouldProcessGeneric(routerResponse) <==>
      routerResponse.Some? && IsValidCategory(routerResponse.value)
      && CategoryOf(routerResponse.value) == Generic
  {
    routerResponse == Some(GenericName)
  }

  /** The two predicates never both hold, and one of them holds exactly
      when the router response is present and a valid name. */
  lemma DispatchExclusive(routerResponse: Option<string>)
    ensures !(ShouldProcessProductReview(routerResponse) && ShouldProcessGeneric(routerResponse))
    ensures ShouldProcessProductReview(routerResponse) || ShouldProcessGeneric(routerResponse)
        <==> routerResponse.Some? && IsValidCategory(routerResponse.value)
  {
  }

  /** The observability record of one routing decision. */
  datatype RoutingMetadata = RoutingMetadata(threadId: string, routingCategory: string)

  /** The decision `RouterAgent.route_query` returns. */
  datatype RouteDecision = RouteDecision(category: string, metadata: RoutingMetadata)

  /** Records the thread and the category, unchanged. */
  function GetRoutingMetadata(threadId: string, category: string): (m: RoutingMetadata)
    ensures m.threadId == threadId && m.routingCategory == category
  {
    RoutingMetadata(threadId, category)
  }

  /** A decision whose category is a valid name that the metadata repeats
      for the given thread. */
  predicate WellFormedDecision(d: RouteDecision, threadId: string) {
    && IsValidCategory(d.category)
    && d.metadata.routingCategory == d.category
    && d.metadata.threadId == threadId
  }

  /** `RouterAgent.route_query` on its normal path: classify, validate,
      attach metadata. */
  function RouteQuery(threadId: string, reply: Outcome<string>): (d: RouteDecision)
    ensures WellFormedDecision(d, threadId)
    ensures d.category == ProductReviewName <==>
      reply.Returned? && Contains(LowerStr(reply.value), ProductReviewName)
  {
    var category := ValidateRoutingCategory(PlanningRouteQuery(reply));
    RouteDecision(category, GetRoutingMetadata(threadId, category))
  }

  /** `RouterAgent.route_query` on its exception path. */
  function RouterFallback(threadId: string): (d: RouteDecision)
    ensures WellFormedDecision(d, threadId)
    ensures d.category == GenericName
  {
    RouteDecision(GenericName, GetRoutingMetadata(threadId, GenericName))
  }
}

=== FILE: text.dfy ===
/** The Python `str` operations the agents rely on, over `seq<char>`:
    `strip`, `lower`/`upper`/`capitalize`, `in`, `find` and `replace`.
    Case mapping covers the ASCII letters only. */
module Text {
  import opened Outcomes

  // ---------------------------------------------------------------------
  // Whitespace and strip()
  // ---------------------------------------------------------------------

  /** Python `str.isspace` for one character, by code point. */
  predicate IsSpace(c: char) {
    var n := c as int;
    || 0x09 <= n <= 0x0D
    || 0x1C <= n <= 0x20
    || n == 0x85 || n == 0xA0 || n == 0x1680
    || 0x2000 <= n <= 0x200A
    || n == 0x2028 || n == 0x2029 || n == 0x202F || n == 0x205F || n == 0x3000
  }

  predicate AllSpace(s: string) {
    forall i :: 0 <= i < |s| ==> IsSpace(s[i])
  }

  /** Neither end of `s` is whitespace. */
  predicate Stripped(s: string) {
    |s| == 0 || (!IsSpace(s[0]) && !IsSpace(s[|s| - 1]))
  }

  /** The first position at or after `i` that is not whitespace (or the
      end): how far Python's `strip` scans from the left. */
  function SkipSpaceForward(s: string, i: nat): (n: nat)
    requires i <= |s|
    ensures i <= n <= |s|
    ensures forall k :: i <= k < n ==> IsSpace(s[k])
    ensures n < |s| ==> !IsSpace(s[n])
    decreases |s| - i
  {
    if i < |s| && IsSpace(s[i]) then SkipSpaceForward(s, i + 1) else i
  }

  /** The end of `s[..j]` once trailing whitespace is dropped, never going
      below `lo`: how far `strip` scans back from the right. */
  function SkipSpaceBackward(s: string, lo: nat, j: nat): (n: nat)
    requires lo <= j <= |s|
    ensures lo <= n <= j
    ensures forall k :: n <= k < j ==> IsSpace(s[k])
    ensures n > lo ==> !IsSpace(s[n - 1])
    decreases j
  {
    if j > lo && IsSpace(s[j - 1]) then SkipSpaceBackward(s, lo, j - 1) else j
  }

  /** Python `s.strip()`: the text between the leading and the trailing
      whitespace. */
  function Strip(s: string): (r: string)
    ensures Stripped(r)
    ensures |r| <= |s|
  {
    var i := SkipSpaceForward(s, 0);
    var j := SkipSpaceBackward(s, i, |s|);
    assert i < j ==> s[i..j][0] == s[i] && s[i..j][j - i - 1] == s[j - 1];
    s[i..j]
  }

  /** `Strip(s)` is the slice `s[i..j]` whose outside is all whitespace. */
  lemma StripBounds(s: string) returns (i: nat, j: nat)
    ensures i <= j <= |s| && Strip(s) == s[i..j]
    ensures AllSpace(s[..i]) && AllSpace(s[j..])
  {
    i := SkipSpaceForward(s, 0);
    j := SkipSpaceBackward(s, i, |s|);
    forall k | 0 <= k < i ensures IsSpace(s[..i][k]) {
      assert s[..i][k] == s[k];
    }
    forall k | 0 <= k < |s| - j ensures IsSpace(s[j..][k]) {
      assert s[j..][k] == s[j + k];
    }
  }

  /** The forward scan stops at the first non-whitespace position. */
  lemma {:induction false} SkipForwardTo(s: string, i: nat, n: nat)
    requires i <= n <= |s| && forall k :: i <= k < n ==> IsSpace(s[k])
    requires n < |s| ==> !IsSpace(s[n])
    ensures SkipSpaceForward(s, i) == n
    decreases n - i
  {
    if i < n {
      SkipForwardTo(s, i + 1, n);
    }
  }

  /** The backward scan stops after the last non-whitespace position. */
  lemma {:induction false} SkipBackwardTo(s: string, lo: nat, j: nat, n: nat)
    requires lo <= n <= j <= |s| && forall k :: n <= k < j ==> IsSpace(s[k])
    requires n > lo ==> !IsSpace(s[n - 1])
    ensures SkipSpaceBackward(s, lo, j) == n
    decreases j - n
  {
    if n < j {
      SkipBackwardTo(s, lo, j - 1, n);
    }
  }

  /** Surrounding whitespace is exactly what `strip` removes: the reference
      characterisation of `Strip`. */
  lemma StripPadded(a: string, x: string, b: string)
    requires AllSpace(a) && AllSpace(b) && Stripped(x)
    ensures Strip(a + x + b) == x
  {
    var s := a + x + b;
    var e := |a| + |x|;
    forall k | 0 <= k < |a| ensures IsSpace(s[k]) {
      assert s[k] == a[k];
    }
    forall k | e <= k < |s| ensures IsSpace(s[k]) {
      assert s[k] == b[k - e];
    }
    if |x| == 0 {
      SkipForwardTo(s, 0, |s|);
      assert s[|s|..|s|] == x;
    } else {
      assert s[|a|] == x[0] && s[e - 1] == x[|x| - 1];
      SkipForwardTo(s, 0, |a|);
      SkipBackwardTo(s, |a|, |s|, e);
      assert s[|a|..e] == x;
    }
  }

  lemma StripStripped(s: string)
    requires Stripped(s)
    ensures Strip(s) == s
  {
    StripPadded("", s, "");
    assert "" + s + "" == s;
  }

  /** Stripping only removes characters. */
  lemma StripChars(s: string, c: char)
    requires c in Strip(s)
    ensures c in s
  {
    var i, j := StripBounds(s);
    var k :| 0 <= k < |s[i..j]| && s[i..j][k] == c;
    assert s[i + k] == c;
  }

  // ---------------------------------------------------------------------
  // ASCII case mapping: lower(), upper(), capitalize()
  // ---------------------------------------------------------------------

  predicate IsUpperAscii(c: char) { 'A' <= c <= 'Z' }

  predicate IsLowerAscii(c: char) { 'a' <= c <= 'z' }

  predicate IsAsciiLetter(c: char) { IsUpperAscii(c) || IsLowerAscii(c) }

  function Lower(c: char): char {
    if IsUpperAscii(c) then (c as int + 32) as char else c
  }

  function Upper(c: char): char {
    if IsLowerAscii(c) then (c as int - 32) as char else c
  }

  /** Python `s.lower()` restricted to ASCII letters. */
  function LowerStr(s: string): (r: string)
    ensures |r| == |s|
  {
    seq(|s|, i requires 0 <= i < |s| => Lower(s[i]))
  }

  /** Lower-casing leaves no capital, keeps every character's letter (the
      same character once upper-cased) and every non-letter where it was,
      and lower-casing again changes nothing. */
  lemma LowerStrCharacterised(s: string)
    ensures forall i :: 0 <= i < |s| ==> !IsUpperAscii(LowerStr(s)[i])
    ensures forall i :: 0 <= i < |s| ==> Upper(LowerStr(s)[i]) == Upper(s[i])
    ensures forall i :: 0 <= i < |s| && !IsAsciiLetter(s[i]) ==> LowerStr(s)[i] == s[i]
    ensures LowerStr(LowerStr(s)) == LowerStr(s)
  {
  }

  /** The lower-cased text is the only text of the same length with no
      capital whose characters upper-case to those of the input. */
  lemma LowerUnique(s: string, x: string)
    requires |x| == |s|
    requires forall i :: 0 <= i < |x| ==> !IsUpperAscii(x[i])
    requires forall i :: 0 <= i < |x| ==> Upper(x[i]) == Upper(s[i])
    ensures x == LowerStr(s)
  {
  }

  /** First character not a lower-case letter, every later one not an
      upper-case letter. */
  predicate IsCapitalized(s: string) {
    && (|s| == 0 || !IsLowerAscii(s[0]))
    && forall i :: 1 <= i < |s| ==> !IsUpperAscii(s[i])
  }

  /** Python `s.capitalize()`: first character upper-cased, the rest
      lower-cased. */
  function Capitalize(s: string): (r: string)
    ensures |r| == |s|
  {
    if |s| == 0 then "" else [Upper(s[0])] + LowerStr(s[1..])
  }

  lemma CapitalizeAt(s: string, i: int)
    requires 0 <= i < |s|
    ensures Capitalize(s)[i] == if i == 0 then Upper(s[0]) else Lower(s[i])
  {
    var rest := LowerStr(s[1..]);
    assert Capitalize(s) == [Upper(s[0])] + rest;
    if i > 0 {
      assert rest[i - 1] == Lower(s[i]);
    }
  }

  /** `Capitalize` agrees with its input up to letter case, and its result
      is capitalized. */
  lemma CapitalizeCharacterised(s: string)
    ensures LowerStr(Capitalize(s)) == LowerStr(s)
    ensures IsCapitalized(Capitalize(s))
  {
    var c := Capitalize(s);
    forall i | 0 <= i < |s|
      ensures LowerStr(c)[i] == LowerStr(s)[i]
      ensures i > 0 ==> !IsUpperAscii(c[i])
    {
      CapitalizeAt(s, i);
    }
    if |s| > 0 {
      CapitalizeAt(s, 0);
    }
  }

  /** A case mapping never produces or consumes a non-letter. */
  lemma CaseMapNonLetter(c: char, d: char)
    requires !IsAsciiLetter(d)
    ensures Upper(c) == d ==> c == d
    ensures Lower(c) == d ==> c == d
  {
  }

  lemma CaseMapSpace(c: char)
    ensures IsSpace(Upper(c)) == IsSpace(c)
    ensures IsSpace(Lower(c)) == IsSpace(c)
  {
  }

  /** `Capitalize` is the only capitalized string that agrees with its
      input up to letter case: the reference characterisation of
      `capitalize`. */
  lemma CapitalizeUnique(s: string, x: string)
    requires |x| == |s| && LowerStr(x) == LowerStr(s) && IsCapitalized(x)
    ensures x == Capitalize(s)
  {
    var c := Capitalize(s);
    CapitalizeCharacterised(s);
    forall i | 0 <= i < |x|
      ensures x[i] == c[i]
    {
      assert LowerStr(x)[i] == Lower(x[i]) && LowerStr(c)[i] == Lower(c[i]);
      assert Lower(x[i]) == Lower(c[i]);
    }
  }

  lemma CapitalizeKeepsStripped(s: string)
    requires Stripped(s)
    ensures Stripped(Capitalize(s))
  {
    var c := Capitalize(s);
    if |s| > 0 {
      var n := |s| - 1;
      CapitalizeAt(s, 0);
      CapitalizeAt(s, n);
      CaseMapSpace(s[0]);
      CaseMapSpace(s[n]);
      assert !IsSpace(c[0]);
      assert !IsSpace(c[n]);
    }
  }

  /** Capitalizing only changes letters, so any non-letter it outputs was
      already in the input at that place. */
  lemma CapitalizeNonLetterAt(s: string, i: int)
    requires 0 <= i < |s| && !IsAsciiLetter(Capitalize(s)[i])
    ensures Capitalize(s)[i] == s[i]
  {
    CapitalizeAt(s, i);
    CaseMapNonLetter(s[i], Capitalize(s)[i]);
  }

  // ---------------------------------------------------------------------
  // Substrings: `pat in s` and `s.find(pat)`
  // ---------------------------------------------------------------------

  predicate OccursAt(s: string, pat: string, i: int) {
    0 <= i && i + |pat| <= |s| && s[i..i + |pat|] == pat
  }

  /** Python `pat in s`. The empty pattern occurs in every text, and no
      pattern longer than the text occurs in it. */
  predicate Contains(s: string, pat: string)
    ensures |pat| == 0 ==> Contains(s, pat)
    ensures Contains(s, pat) ==> |pat| <= |s|
  {
    assert |pat| == 0 ==> OccursAt(s, pat, 0);
    exists i | 0 <= i <= |s| - |pat| :: OccursAt(s, pat, i)
  }

  lemma OccursAtTail(s: string, pat: string, k: int)
    requires |s| > 0 && k >= 0
    ensures OccursAt(s[1..], pat, k) <==> OccursAt(s, pat, k + 1)
  {
    if 0 <= k && k + 1 + |pat| <= |s| {
      assert s[1..][k..k + |pat|] == s[k + 1..k + 1 + |pat|];
    }
  }

  lemma OccursInSlice(s: string, pat: string, lo: int, hi: int, k: int)
    requires 0 <= lo <= hi <= |s|
    ensures OccursAt(s[lo..hi], pat, k) <==> (0 <= k && k + |pat| <= hi - lo && OccursAt(s, pat, lo + k))
  {
    if 0 <= k && k + |pat| <= hi - lo {
      var u := s[lo..hi][k..k + |pat|];
      var v := s[lo + k..lo + k + |pat|];
      forall m | 0 <= m < |pat| ensures u[m] == v[m] {
      }
      assert u == v;
    }
  }

  /** Python `s.find(pat)`: the leftmost occurrence, if any. */
  function IndexOf(s: string, pat: string): (r: Option<nat>)
    ensures r.Some? ==> r.value + |pat| <= |s|
    decreases |s|
  {
    if |s| < |pat| then None
    else if s[..|pat|] == pat then Some(0)
    else
      match IndexOf(s[1..], pat)
      case None => None
      case Some(k) => Some(k + 1)
  }

  /** No occurrence at the front nor in the tail means none at all. */
  lemma AbsentByTail(s: string, pat: string)
    requires |s| > 0 && !OccursAt(s, pat, 0) && !Contains(s[1..], pat)
    ensures !Contains(s, pat)
  {
    forall i | 0 < i <= |s| - |pat| ensures !OccursAt(s, pat, i) {
      OccursAtTail(s, pat, i - 1);
    }
  }

  /** The leftmost occurrence in the tail, shifted by one, is the leftmost
      one in `s` when there is none at the front. */
  lemma LeftmostByTail(s: string, pat: string, k: nat)
    requires |s| > 0 && !OccursAt(s, pat, 0) && OccursAt(s[1..], pat, k)
    requires forall j :: 0 <= j < k ==> !OccursAt(s[1..], pat, j)
    ensures OccursAt(s, pat, k + 1)
    ensures forall j :: 0 <= j < k + 1 ==> !OccursAt(s, pat, j)
  {
    OccursAtTail(s, pat, k);
    forall j | 0 < j < k + 1 ensures !OccursAt(s, pat, j) {
      OccursAtTail(s, pat, j - 1);
    }
  }

  /** `find` agrees with `in`: it reports an occurrence exactly when there
      is one, and the one it reports is the leftmost. */
  lemma {:induction false} IndexOfLeftmost(s: string, pat: string)
    ensures IndexOf(s, pat).Some? ==> OccursAt(s, pat, IndexOf(s, pat).value)
    ensures IndexOf(s, pat).Some? ==>
      forall j :: 0 <= j < IndexOf(s, pat).value ==> !OccursAt(s, pat, j)
    ensures IndexOf(s, pat).None? <==> !Contains(s, pat)
    decreases |s|
  {
    if |s| < |pat| {
      assert !Contains(s, pat);
    } else if s[..|pat|] == pat {
      assert OccursAt(s, pat, 0);
    } else {
      assert !OccursAt(s, pat, 0);
      IndexOfLeftmost(s[1..], pat);
      var tail := IndexOf(s[1..], pat);
      if tail.None? {
        AbsentByTail(s, pat);
      } else {
        LeftmostByTail(s, pat, tail.value);
        assert OccursAt(s, pat, tail.value + 1);
      }
    }
  }

  /** A slice of a string without `pat` lacks `pat`. */
  lemma NotContainsSlice(s: string, pat: string, lo: int, hi: int)
    requires 0 <= lo <= hi <= |s| && !Contains(s, pat)
    ensures !Contains(s[lo..hi], pat)
  {
    forall k | 0 <= k <= hi - lo - |pat| ensures !OccursAt(s[lo..hi], pat, k) {
      OccursInSlice(s, pat, lo, hi, k);
    }
  }

  /** Stripping cannot create an occurrence. */
  lemma NotContainsStrip(s: string, pat: string)
    requires !Contains(s, pat)
    ensures !Contains(Strip(s), pat)
  {
    var i, j := StripBounds(s);
    NotContainsSlice(s, pat, i, j);
  }

  /** A token found in the trimmed text is found in the text. */
  lemma ContainsOfStrip(s: string, tok: string)
    requires Contains(Strip(s), tok)
    ensures Contains(s, tok)
  {
    var i, j := StripBounds(s);
    var k :| 0 <= k <= |Strip(s)| - |tok| && OccursAt(Strip(s), tok, k);
    OccursInSlice(s, tok, i, j, k);
  }

  /** The first and last characters of an occurrence are those of the pattern. */
  lemma OccurrenceEnds(s: string, tok: string, k: nat)
    requires |tok| > 0 && OccursAt(s, tok, k)
    ensures s[k] == tok[0] && s[k + |tok| - 1] == tok[|tok| - 1]
  {
    var o := s[k..k + |tok|];
    assert o[0] == s[k];
    assert o[|tok| - 1] == s[k + |tok| - 1];
  }

  /** A span whose end characters are not whitespace survives trimming,
      at offset `k - i` of the trimmed text. */
  lemma StripAround(s: string, k: nat, n: nat) returns (i: nat, j: nat)
    requires n > 0 && k + n <= |s| && !IsSpace(s[k]) && !IsSpace(s[k + n - 1])
    ensures i <= k && k + n <= j <= |s| && Strip(s) == s[i..j]
  {
    i := SkipSpaceForward(s, 0);
    j := SkipSpaceBackward(s, i, |s|);
    assert i <= k;
    assert k + n <= j;
  }

  /** A token with no whitespace found in the text lies inside its trimmed part. */
  lemma ContainsInStrip(s: string, tok: string)
    requires |tok| > 0 && forall k :: 0 <= k < |tok| ==> !IsSpace(tok[k])
    requires Contains(s, tok)
    ensures Contains(Strip(s), tok)
  {
    var k :| 0 <= k <= |s| - |tok| && OccursAt(s, tok, k);
    OccurrenceEnds(s, tok, k);
    assert !IsSpace(tok[0]) && !IsSpace(tok[|tok| - 1]);
    var i, j := StripAround(s, k, |tok|);
    OccursInSlice(s, tok, i, j, k - i);
    assert OccursAt(Strip(s), tok, k - i);
  }

  /** For a token with no whitespace, trimming the haystack does not change
      whether the token is found in it. */
  lemma ContainsStripIff(s: string, tok: string)
    requires |tok| > 0 && forall k :: 0 <= k < |tok| ==> !IsSpace(tok[k])
    ensures Contains(Strip(s), tok) <==> Contains(s, tok)
  {
    if Contains(Strip(s), tok) {
      ContainsOfStrip(s, tok);
    }
    if Contains(s, tok) {
      ContainsInStrip(s, tok);
    }
  }

  /** Capitalizing cannot create an occurrence of a letter-free pattern. */
  lemma NotContainsCapitalize(s: string, pat: string)
    requires !Contains(s, pat)
    requires forall k :: 0 <= k < |pat| ==> !IsAsciiLetter(pat[k])
    ensures !Contains(Capitalize(s), pat)
  {
    var c := Capitalize(s);
    forall i | 0 <= i <= |c| - |pat| ensures !OccursAt(c, pat, i) {
      if OccursAt(c, pat, i) {
        forall k | 0 <= k < |pat| ensures s[i + k] == pat[k] {
          assert c[i + k] == pat[k];
          CapitalizeNonLetterAt(s, i + k);
        }
        assert s[i..i + |pat|] == pat;
        assert OccursAt(s, pat, i);
      }
    }
  }

  // ---------------------------------------------------------------------
  // replace()
  // ---------------------------------------------------------------------

  /** Python `s.replace(pat, rep)`: every leftmost, non-overlapping
      occurrence of `pat` is replaced by `rep`. */
  function Replace(s: string, pat: string, rep: string): (r: string)
    requires |pat| > 0
    ensures |rep| <= |pat| ==> |r| <= |s|
    decreases |s|
  {
    if |s| < |pat| then s
    else if s[..|pat|] == pat then rep + Replace(s[|pat|..], pat, rep)
    else [s[0]] + Replace(s[1..], pat, rep)
  }

  /** A character that does not occur is not found as a one-character pattern. */
  lemma NotContainsChar(s: string, c: char)
    requires c !in s
    ensures !Contains(s, [c])
  {
    forall i | 0 <= i <= |s| - 1 ensures !OccursAt(s, [c], i) {
      assert s[i..i + 1][0] == s[i];
    }
  }

  /** A pattern with a character the text lacks is not found in it. */
  lemma NotContainsMissingChar(s: string, pat: string, k: int)
    requires 0 <= k < |pat| && pat[k] !in s
    ensures !Contains(s, pat)
  {
    forall i | 0 <= i <= |s| - |pat| ensures !OccursAt(s, pat, i) {
      assert s[i..i + |pat|][k] == s[i + k];
    }
  }

  /** On text without `pat`, replacing scans to the end unchanged. */
  lemma {:induction false} ReplaceAbsent(s: string, pat: string, rep: string)
    requires |pat| > 0 && !Contains(s, pat)
    ensures Replace(s, pat, rep) == s
    decreases |s|
  {
    if |s| >= |pat| {
      assert !OccursAt(s, pat, 0);
      NotContainsSlice(s, pat, 1, |s|);
      assert s[1..|s|] == s[1..];
      ReplaceAbsent(s[1..], pat, rep);
    }
  }

  /** Replacing leaves a prefix free of `pat` occurrences untouched. */
  lemma {:induction false} ReplaceSkipsPrefix(s: string, pat: string, rep: string, i: nat)
    requires |pat| > 0 && i <= |s|
    requires forall j :: 0 <= j < i ==> !OccursAt(s, pat, j)
    ensures Replace(s, pat, rep) == s[..i] + Replace(s[i..], pat, rep)
    decreases i
  {
    if i > 0 {
      if |s| < |pat| {
        assert Replace(s[i..], pat, rep) == s[i..];
        assert s[..i] + s[i..] == s;
      } else {
        assert !OccursAt(s, pat, 0);
        assert Replace(s, pat, rep) == [s[0]] + Replace(s[1..], pat, rep);
        ReplaceSkipsPrefixTail(s, pat, i);
        ReplaceSkipsPrefix(s[1..], pat, rep, i - 1);
        assert s[1..][i - 1..] == s[i..];
        assert [s[0]] + s[1..][..i - 1] == s[..i];
      }
    }
  }

  lemma ReplaceSkipsPrefixTail(s: string, pat: string, i: nat)
    requires 0 < i <= |s| && forall j :: 0 <= j < i ==> !OccursAt(s, pat, j)
    ensures forall j :: 0 <= j < i - 1 ==> !OccursAt(s[1..], pat, j)
  {
    forall j | 0 <= j < i - 1 ensures !OccursAt(s[1..], pat, j) {
      OccursAtTail(s, pat, j);
    }
  }

  /** Deleting a one-character pattern removes every copy of that character. */
  lemma {:induction false} DeleteCharRemovesAll(s: string, c: char)
    ensures c !in Replace(s, [c], "")
    decreases |s|
  {
    if |s| >= 1 {
      DeleteCharRemovesAll(s[1..], c);
      if s[..1] != [c] {
        assert s[0] != c;
      }
    }
  }

  /** `replace` introduces no character outside the input and `rep`. */
  lemma {:induction false} ReplaceChars(s: string, pat: string, rep: string, c: char)
    requires |pat| > 0 && c in Replace(s, pat, rep)
    ensures c in s || c in rep
    decreases |s|
  {
    if |s| >= |pat| {
      if s[..|pat|] == pat {
        if c !in rep {
          ReplaceChars(s[|pat|..], pat, rep, c);
        }
      } else if c != s[0] {
        ReplaceChars(s[1..], pat, rep, c);
      }
    }
  }

  /** Python `s.strip(c)` for a single character `c`. */
  function StripChar(s: string, c: char): (r: string)
    ensures c !in s ==> r == s
    ensures |r| <= |s|
    ensures |r| > 0 ==> r[0] != c && r[|r| - 1] != c
    decreases |s|
  {
    if |s| > 0 && s[0] == c then StripChar(s[1..], c)
    else if |s| > 0 && s[|s| - 1] == c then StripChar(s[..|s| - 1], c)
    else s
  }

  /** `s.strip(c)` is the slice of `s` left once the runs of `c` at both
      ends are cut off. */
  lemma {:induction false} StripCharBounds(s: string, c: char) returns (i: nat, j: nat)
    ensures i <= j <= |s| && StripChar(s, c) == s[i..j]
    ensures forall k :: 0 <= k < i ==> s[k] == c
    ensures forall k :: j <= k < |s| ==> s[k] == c
    decreases |s|
  {
    if |s| > 0 && s[0] == c {
      var i', j' := StripCharBounds(s[1..], c);
      StripCharDroppedFront(s, c, i', j');
      i, j := i' + 1, j' + 1;
    } else if |s| > 0 && s[|s| - 1] == c {
      i, j := StripCharBounds(s[..|s| - 1], c);
      StripCharDroppedBack(s, c, s[..|s| - 1], i, j);
    } else {
      i, j := 0, |s|;
    }
  }

  /** Bounds for `s[1..]` give bounds for `s` when `s` starts with `c`. */
  lemma StripCharDroppedFront(s: string, c: char, i: nat, j: nat)
    requires |s| > 0 && s[0] == c && i <= j <= |s| - 1
    requires StripChar(s[1..], c) == s[1..][i..j]
    requires forall k :: 0 <= k < i ==> s[1..][k] == c
    requires forall k :: j <= k < |s| - 1 ==> s[1..][k] == c
    ensures StripChar(s, c) == s[i + 1..j + 1]
    ensures forall k :: 0 <= k < i + 1 ==> s[k] == c
    ensures forall k :: j + 1 <= k < |s| ==> s[k] == c
  {
    var t := s[1..];
    assert t[i..j] == s[i + 1..j + 1];
    forall k | 0 < k < i + 1 ensures s[k] == c {
      assert s[k] == t[k - 1];
    }
    forall k | j + 1 <= k < |s| ensures s[k] == c {
      assert s[k] == t[k - 1];
    }
  }

  /** Bounds for `s[..|s| - 1]` give bounds for `s` when `s` does not
      start but ends with `c`. */
  lemma StripCharDroppedBack(s: string, c: char, t: string, i: nat, j: nat)
    requires |s| > 0 && !(s[0] == c) && s[|s| - 1] == c
    requires t == s[..|s| - 1] && i <= j <= |t| && StripChar(t, c) == t[i..j]
    requires forall k :: 0 <= k < i ==> t[k] == c
    requires forall k :: j <= k < |t| ==> t[k] == c
    ensures StripChar(s, c) == s[i..j]
    ensures forall k :: 0 <= k < i ==> s[k] == c
    ensures forall k :: j <= k < |s| ==> s[k] == c
  {
    assert t[i..j] == s[i..j];
    assert forall k :: 0 <= k < |t| ==> s[k] == t[k];
  }

}
